=== FILE: README.md ===
# Pitch actions of a Music Blocks voice, in Dafny

This project models `js/turtleactions/PitchActions.js` of Music Blocks: the actions that the
pitch-palette blocks run on one voice (a "turtle" and its singer state). The voice is an
immutable record (`Voices.Voice`) and every action is a pure transition on it. An action
that throws returns a `Result` whose failure names the thrown string.

The music theory those actions call is not part of this model. That covers `getNote`,
`numberToPitch`, `pitchToNumber`, `frequencyToPitch`, `getInterval`,
`getStepSizeUp/Down`, `calcOctave`, `Singer.calculateInvert` and `Singer.processPitch`.
The tables `ACCIDENTALNAMES` / `ACCIDENTALVALUES` and the synth's temperament and starting
pitch are left out too. All of them arrive as fields of a caller-supplied `Host.Env` record.
Their signatures fix which inputs each helper may read, and the model assumes the helpers
are total and return finite numbers: integers, except `calcOctave`'s octave and the cents
of `frequencyToPitch`, which are reals (see "## Left out"). Beyond that, the only assumptions are
those a contract names:
- the accidental tables are aligned;
- steps up go up and steps down go down;
- in `PitchNumber.OffsetAnchorsZero` and `PitchNumber.MeasuredNumberNamesHeardPitch`,
  `numberToPitch` spells back what `pitchToNumber` numbered;
- in the chord lemmas of `ChordShift`, `getNote` moves a pitch by exactly the semitones asked.

Modules, leaves first:
- `Outcomes`: Option, Result, and the failures. `NoNoteError` and `NoArgError` are thrown
  strings. `TypeError` is JavaScript's null or undefined dereference. `NaNTransposition`
  is the NaN left by popping an empty transposition stack.
- `Notes`: the last-character rule that splits a played note such as `"G4"` into a name and
  an octave.
- `Voices`: the voice record and the note event of one Note block. The event holds the five
  parallel arrays `notePitches`, `noteOctaves`, `noteCents`, `noteHertz` and
  `noteBeatValues` for its key.
- `Host`: the external helpers and the assumptions about them.
- `Modifiers`: the accidental and semitone-transpose blocks. Each block's undo listener is
  an explicit `Undo` value that scope exit fires.
- `NoteEvents`: the hertz block (`playHertz`) and its `addPitch`.
- `PitchNumber`: `playPitchNumber`, `numToPitch` and `setPitchNumberOffset`.
- `DeltaPitch`: `deltaPitch` and `consonantStepSize`.
- `Scopes`: nested block programs. They show that modifier scopes undo exactly.
- `ChordShift`: the chord tones of a hertz block, as written and corrected (see
  "## Findings").

Behaviour of the code worth knowing:
- The accidental block returns before touching the voice for any token outside the
  accidental names. This includes the localised "sharp" and "flat". It registers no
  listener in that case.
- `addPitch` in the hertz block shifts by `tur.transposition` (line 119). The accidental and
  semitone blocks change `tur.singer.transposition` (lines 218 and 242). The model keeps
  both fields (`turtleTransposition` and `transposition`). `NoteEvents.PlayHertzIgnoresModifiers`
  proves that the modifier blocks never reach the pitches a hertz block adds.
- `deltaPitch` keeps a step counter whose `if (i > 100) return;` leaves only the step
  closure, not the `while` loop around it. The scalar walk therefore ends only if step sizes
  have the right sign. The model requires that (`DeltaPitch.WalkMoves`).
- All semitone-transpose listeners of a voice share one listener name. The undo therefore
  pops the value stack instead of using a value captured at entry. This is why nested
  transpositions still undo exactly.
- Both listeners read the inversion state when they fire, not when they were registered.
  If an inversion begins or ends inside a modifier's scope, the exit repeats the entry's
  shift instead of undoing it.

## Model

| member | source | states |
|---|---|---|
| Notes.SplitNote | js/turtleactions/PitchActions.js:313-321 | the name is the note string minus its last character and the octave is that character's digit value; it is NaN for a non-digit or an empty string |
| Notes.DigitValue | js/turtleactions/PitchActions.js:313-321 | parseInt of one character has a value exactly for the digits 0-9, and that value is the digit the character writes |
| Notes.SplitNoteRoundTrip | js/turtleactions/PitchActions.js:313-315 | splitting a note written with a one-digit octave gives back that name and octave |
| Notes.SplitNoteTwoDigitOctave | js/turtleactions/PitchActions.js:319-321 | a two-digit octave is misread: "C10" splits into name "C1" and octave 0 |
| Modifiers.IndexOf | js/turtleactions/PitchActions.js:200 | indexOf returns the first index holding the token, or -1 exactly when the token is absent |
| Modifiers.AccidentalValue | js/turtleactions/PitchActions.js:199-215 | a token first found at index i of the accidental names has the i-th accidental value; a token not among the names, the localised "sharp" and "flat" included, has none |
| Modifiers.SetAccidental | js/turtleactions/PitchActions.js:198-229 | a token with a value shifts the transposition by it (negated under inversion) and registers an undo carrying that value; no other field changes; a token without a value changes nothing and registers nothing |
| Modifiers.SetSemitoneTranspose | js/turtleactions/PitchActions.js:239-244 | entry shifts the transposition by the amount, negated under inversion, and pushes the amount; no other field changes and a listener is always registered |
| Modifiers.RunUndo | js/turtleactions/PitchActions.js:224-254 | the accidental undo moves the transposition back by its value, or forward under inversion; the semitone undo pops exactly the last pushed value and moves the transposition back by it, or forward under inversion; it fails (NaN) exactly on an empty stack; no other field changes |
| Modifiers.ExitScope | js/turtleactions/PitchActions.js:221-256 | leaving a block with no listener changes nothing; leaving one with a listener fires it; the inversion records are never touched |
| Modifiers.AccidentalExitUndoesEntry | js/turtleactions/PitchActions.js:218-226 | if the inversion state at exit matches the one at entry, the accidental listener restores the transposition from before entry |
| Modifiers.SemitoneExitUndoesEntry | js/turtleactions/PitchActions.js:242-254 | if the inversion state at exit matches the one at entry, the transpose listener restores both the transposition and the value stack from before entry |
| Modifiers.AccidentalExitAfterInversionChange | js/turtleactions/PitchActions.js:218-226 | if the inversion state changed between entry and exit, the accidental listener leaves the transposition at twice the entry shift instead of restoring it |
| Modifiers.SemitoneExitAfterInversionChange | js/turtleactions/PitchActions.js:241-254 | if the inversion state changed between entry and exit, the transpose listener restores the value stack but leaves the transposition at twice the entry shift |
| Scopes.RunRestoresModifiers | js/turtleactions/PitchActions.js:239-256 | LIFO-nested accidental, transpose and inversion scopes around hertz blocks leave the transposition, the value stack and the inversion records as they found them; they never pop an empty stack |
| Scopes.RunAllRestoresModifiers | js/turtleactions/PitchActions.js:198-256 | the same holds for a sequence of nested scopes |
| Scopes.ModifiersOnlyIsIdentity | js/turtleactions/PitchActions.js:198-256 | nested modifier scopes with no hertz block always complete and return the voice unchanged |
| NoteEvents.AddPitchShiftTracksTurtle | js/turtleactions/PitchActions.js:119 | the addPitch shift moves one for one with tur.transposition and by 12 per register step, and does not move with singer.transposition or its value stack |
| NoteEvents.AddPitch | js/turtleactions/PitchActions.js:118-140 | the recorded pitch is getNote of the given pitch shifted by 2 * delta + the turtle transposition + 12 * register, in the voice's key, with the given direction; the cents and frequency are kept as given |
| NoteEvents.ChordEntries | js/turtleactions/PitchActions.js:142-175 | a hertz block adds 1 + (number of intervals) + (number of semitone intervals) pitches; the first is the heard pitch through addPitch and carries the frequency; all later ones carry frequency 0, and all carry the heard cents |
| NoteEvents.ChordTones | js/turtleactions/PitchActions.js:142-175 | the i-th interval pitch is the base (the first pitch) shifted by getInterval and then passed through addPitch again; each semitone-interval pitch is the base shifted by its semitones, passed through addPitch with its direction |
| NoteEvents.Append | js/turtleactions/PitchActions.js:135-138 | the four per-pitch arrays grow in lock step with the new entries appended in order; the beat values grow by the beat factor alone |
| PitchNumber.MeasuredNumberNamesHeardPitch | js/turtleactions/PitchActions.js:94-107 | the number a hertz block measures is relative to the pitch-number offset: reading it back with the number-to-pitch block gives the name and octave getNote spelled for the heard pitch, when numberToPitch inverts pitchToNumber |
| NoteEvents.Measure | js/turtleactions/PitchActions.js:104-112 | the measured number goes to firstPitch while it is shorter than the open measure count, else to lastPitch while that is shorter, else nowhere |
| NoteEvents.PlayHertz | js/turtleactions/PitchActions.js:83-188 | measuring takes precedence over an open Note block; with neither, NoNoteError and nothing changes; in a Note block it succeeds exactly when the top block's arrays exist, and then only that block's event and pushedNote change |
| NoteEvents.PlayHertzRecordsChord | js/turtleactions/PitchActions.js:113-178 | in a Note block whose arrays exist, the block succeeds and the top event becomes the old event with the chord of the heard pitch, under the inversion delta of lines 114-116, appended |
| NoteEvents.NoteBlockLockStep | js/turtleactions/PitchActions.js:135-178 | when the top block's arrays exist the hertz block succeeds; the top event's four per-pitch arrays each grow by 1 + intervals + semitone intervals and its beat values by exactly 1; the first new frequency is the input, later ones are 0, every new cents value is the heard cents, and pushedNote is set |
| NoteEvents.PlayHertzKeepsLockStep | js/turtleactions/PitchActions.js:135-138 | whenever the hertz block succeeds, note events whose per-pitch arrays have equal lengths keep equal lengths |
| NoteEvents.MeasuringStaysBounded | js/turtleactions/PitchActions.js:104-112 | while measuring, neither measured list outgrows the open measure count; lastPitch grows only once firstPitch is full; the note events are untouched |
| NoteEvents.PlayHertzIgnoresModifiers | js/turtleactions/PitchActions.js:118-119 | the hertz block's outcome does not depend on singer.transposition or the transpose value stack: changing them changes nothing else in the result |
| NoteEvents.PlayHertzKeepsModifiers | js/turtleactions/PitchActions.js:83-188 | a hertz block leaves the transposition, the value stack and the inversion records unchanged |
| PitchNumber.PlayPitchNumber | js/turtleactions/PitchActions.js:46-74 | in define mode the raw number is appended to the definition and nothing else changes; otherwise the number plus the offset is spelled and processed with no cents |
| PitchNumber.DefineModeRecordsInOrder | js/turtleactions/PitchActions.js:49-51 | in define mode a run of pitch-number blocks appends exactly those numbers, in order, and changes nothing else |
| PitchNumber.NumToPitch | js/turtleactions/PitchActions.js:268-282 | NoArgError exactly when the argument is null or not a number; otherwise floor(number) + offset is spelled, giving the name for "pitch" and the octave for any other output type |
| PitchNumber.SetPitchNumberOffset | js/turtleactions/PitchActions.js:291-298 | only the offset changes, and it becomes the pitch number of the pitch at the floor of calcOctave's octave |
| PitchNumber.OffsetAnchorsZero | js/turtleactions/PitchActions.js:268-298 | if numberToPitch inverts pitchToNumber, then after the offset is set to a pitch, every number in [0, 1) names that pitch and octave |
| DeltaPitch.StepFrom | js/turtleactions/PitchActions.js:335-351 | one step has the key's step size up or down from the current name, reaches the pitch getNote gives for that many semitones, and under outward step sizes moves at least a semitone in its direction |
| DeltaPitch.StepsUp | js/turtleactions/PitchActions.js:333-360 | with upward steps of at least a semitone, the up loop takes between 1 and delta steps |
| DeltaPitch.StepsDown | js/turtleactions/PitchActions.js:333-365 | with downward steps of at least a semitone, the down loop takes between 1 and -delta steps |
| DeltaPitch.CoveredMonotone | js/turtleactions/PitchActions.js:335-365 | with outward step sizes, more steps up cover strictly more semitones and more steps down strictly fewer |
| DeltaPitch.StepsUpIsLeastCover | js/turtleactions/PitchActions.js:333-360 | the up loop stops at the least number of scale steps whose sizes add up to at least the delta: every smaller count covers less |
| DeltaPitch.StepsDownIsLeastCover | js/turtleactions/PitchActions.js:333-365 | the down loop stops at the least number of scale steps whose sizes reach down to the delta: every smaller count stays above it |
| DeltaPitch.DeltaPitch | js/turtleactions/PitchActions.js:307-370 | 0 without a previous note; a TypeError when there is a previous note but no last one; "deltapitch" gives the semitone difference from the previous note to the last; the scalar result has that difference's sign and at most its magnitude, and is 0 when the difference is 0. Outward step sizes are needed only for a scalar walk over a non-zero difference |
| DeltaPitch.DeltaPitchOfNoteStrings | js/turtleactions/PitchActions.js:310-327 | for notes with one-digit octaves, "deltapitch" is the difference of the pitch numbers of the names and octaves they were written from |
| DeltaPitch.ScalarDeltaIsLeastCover | js/turtleactions/PitchActions.js:329-367 | the scalar delta is the least number of scale steps from the last note that covers the semitone delta, with a negative sign going down: every smaller count falls short |
| DeltaPitch.ConsonantStepSize | js/turtleactions/PitchActions.js:379-399 | when step sizes point outward, "up" gives a step of at least one semitone up and anything else one of at least a semitone down |
| ChordShift.IntervalShiftedTwice | js/turtleactions/PitchActions.js:118-158 | as written, when getNote transposes exactly, the base lies the addPitch shift above the heard pitch and each interval tone lies its interval plus twice that shift above it |
| ChordShift.SemitoneShiftedTwice | js/turtleactions/PitchActions.js:118-175 | as written, each semitone-interval tone lies its semitones plus twice the addPitch shift above the heard pitch |
| ChordShift.PlayHertzRecordsDoubleShift | js/turtleactions/PitchActions.js:113-158 | as written, when getNote transposes exactly, the base pitch the hertz block records in notePitches and noteOctaves lies the addPitch shift above the heard pitch and each recorded interval tone its interval plus twice that shift |
| ChordShift.CorrectedChordEntries | js/turtleactions/PitchActions.js:142-175 | the corrected chord has the same number of entries, the same first entry, and the same cents and frequencies as the written one |
| ChordShift.CorrectedIntervalShiftedOnce | js/turtleactions/PitchActions.js:142-158 | corrected, each interval tone lies its interval plus the shift above the heard pitch, the same shift as the base |
| ChordShift.CorrectedSemitoneShiftedOnce | js/turtleactions/PitchActions.js:160-175 | corrected, each semitone-interval tone lies its semitones plus the shift above the heard pitch |
| ChordShift.DoubleShiftExample | js/turtleactions/PitchActions.js:118-158 | with one register up and a fifth as the only interval, the base is 12 semitones up, the written fifth 31 and the corrected fifth 19 |
| DeltaPitch.ConsonantStepOfNoteString | js/turtleactions/PitchActions.js:382-397 | the step is taken from the last note's name with its octave digit stripped, or from G when no note has been played |

## Left out

- The bodies of the pitch helpers, `Singer.calculateInvert` and `Singer.processPitch`, and
  the accidental tables. They are outside this file and enter only as `Host.Env` fields.
  The model assumes they return finite numbers: integers, except `calcOctave`'s octave and
  the cents of `frequencyToPitch`, which are reals.
- Floating point: `frequencyToPitch` and `pitchToFrequency` are logarithms. Frequencies,
  cents and beat factors are exact reals. NaN and Infinity arguments are left out, except
  that `Notes.Num` models the NaN that parseInt of a non-digit gives.
- `playPitch` (lines 35-37): it is a one-line delegation to `Singer.processPitch`, which is
  external.
- The custom-temperament warning in `playPitchNumber` (lines 53-62): it only emits a message.
- The drum table (lines 130-133) and notation output (lines 179-184): both are
  presentation side effects that do not touch the modelled fields.
- Scheduler wiring: `setDispatchBlock`, `setTurtleListener` and listener names (lines
  220-228, 246-256). A listener is the `Undo` value fired by `Modifiers.ExitScope`. Its
  firing at the end of its own block is modelled by `Scopes.Run`.
- The inversion block is not part of this file. `Scopes.InvertBlock` is only a stand-in
  that pushes and pops an inversion record.
- `getNote` receives `undefined` or `null` for a missing direction or temperament. Both are
  modelled as `None`.
- Turtle lookup and `logo.errorMsg`: each action receives the voice record directly, and the
  error callback is not modelled.
- `Singer.calculateInvert` is assumed to read only the inversion records, the key signature
  and the moveable flag of the voice, and the heard pitch, so not the transposition or its
  value stack; `NoteEvents.PlayHertzIgnoresModifiers` depends on this assumption. It
  returns an integer here, so a pivot half-way between two semitones (a half-step result)
  is not expressible.
- PitchNumber.PlayPitchNumber: takes integer pitch numbers only. The source records any
  Number as given in define mode and does not floor it before spelling.
- Notes.SplitNote: Dafny strings count code points, where JavaScript's `length` and `slice`
  count UTF-16 units. A note ending in a character outside the Basic Multilingual Plane,
  such as "𝄪", splits differently in the source.
- NoteEvents.PlayHertz: records the chord tones with the double shift described under
  "## Findings" (`ChordShift.PlayHertzRecordsDoubleShift`); the corrected chord is
  `ChordShift.CorrectedChordEntries`, proved separately.
- NoteEvents.PlayHertz: a missing note array fails as a whole (`TypeError`) before any push.
  This holds when the five arrays of a Note block exist together, as the model represents them.

## Findings

| source | as written | input that shows it | evidently intended | confidence | as-written member | corrected member |
|---|---|---|---|---|---|---|
| js/turtleactions/PitchActions.js:142-175 | the interval and semitone-interval tones are measured from `noteObj1`, which addPitch has already shifted, and are then passed through addPitch, which shifts them by `2 * delta + tur.transposition + 12 * register` again | register 1, no turtle transposition, no inversion, one interval that getInterval makes a fifth (7): the base lands 12 semitones up, the fifth 31 instead of 19 | each chord tone keeps its interval from the shifted base, so every pitch is shifted once | not executed | ChordShift.PlayHertzRecordsDoubleShift | ChordShift.CorrectedIntervalShiftedOnce |

=== FILE: chord_shift.dfy ===
/** The chord tones of a hertz block are shifted twice. An interval or semitone interval is
    measured from the base pitch after addPitch has shifted it, and is then passed through
    addPitch, which shifts it again. With a non-zero shift (a register, a turtle
    transposition or an inversion) the chord tones drift away from the base by the shift.
    `NoteEvents.ChordEntries` keeps that behaviour; `CorrectedChordEntries` shifts every
    pitch exactly once. */
module ChordShift {

  import opened Outcomes
  import opened Notes
  import opened Voices
  import opened Host
  import opened NoteEvents

  /** The pitch number of a spelled pitch in the voice's key. */
  function Number(env: Env, v: Voice, p: Pitch): int {
    env.pitchToNumber(p.name, Fin(p.octave), v.keySignature)
  }

  /** getNote moves a pitch by exactly the requested number of semitones, as it does for a
      key that is not moveable. */
  ghost predicate Transposes(env: Env, v: Voice) {
    forall name: string, o: int, s: int, d: Option<int> ::
      Number(env, v, env.getNote(name, Fin(o), s, v.keySignature, v.moveable, d, Some(env.temperament)))
        == env.pitchToNumber(name, Fin(o), v.keySignature) + s
  }

  /** The entries of a hertz block with every pitch shifted once: the chord tones are
      measured from the shifted base and recorded as they are. */
  function CorrectedChordEntries(env: Env, v: Voice, delta: int, heard: HeardPitch, hertz: real): (es: seq<Entry>)
    ensures |es| == |ChordEntries(env, v, delta, heard, hertz)|
    ensures es[0] == ChordEntries(env, v, delta, heard, hertz)[0]
    ensures forall i :: 0 <= i < |es| ==>
              es[i].cents == heard.cents && es[i].hertz == ChordEntries(env, v, delta, heard, hertz)[i].hertz
  {
    var first := AddPitch(env, v, delta, Pitch(heard.name, heard.octave), heard.cents, hertz, None);
    var base := Pitch(first.name, first.octave);
    [first]
    + seq(|v.intervals|, i requires 0 <= i < |v.intervals| =>
            var q := Shift(env, v, base, env.getInterval(v.intervals[i], v.keySignature, base.name));
            Entry(q.name, q.octave, heard.cents, 0.0))
    + seq(|v.semitoneIntervals|, j requires 0 <= j < |v.semitoneIntervals| =>
            var si := v.semitoneIntervals[j];
            var q := env.getNote(base.name, Fin(base.octave), si.semitones, v.keySignature, v.moveable,
                                 Some(si.direction), Some(env.temperament));
            Entry(q.name, q.octave, heard.cents, 0.0))
  }

  /** As written: when getNote transposes by semitones, the i-th interval tone lies the
      interval plus twice the addPitch shift above the heard pitch, while the base lies
      the shift above it. */
  lemma IntervalShiftedTwice(env: Env, v: Voice, delta: int, heard: HeardPitch, hertz: real, i: int)
    requires Transposes(env, v)
    requires 0 <= i < |v.intervals|
    ensures var es := ChordEntries(env, v, delta, heard, hertz);
      var n := Number(env, v, Pitch(heard.name, heard.octave));
      var shift := AddPitchShift(v, delta);
      && Number(env, v, Pitch(es[0].name, es[0].octave)) == n + shift
      && Number(env, v, Pitch(es[1 + i].name, es[1 + i].octave))
           == n + 2 * shift + env.getInterval(v.intervals[i], v.keySignature, es[0].name)
  {
    ChordTones(env, v, delta, heard, hertz);
    var es := ChordEntries(env, v, delta, heard, hertz);
    var shift := AddPitchShift(v, delta);
    var base := Pitch(es[0].name, es[0].octave);
    var ii := env.getInterval(v.intervals[i], v.keySignature, base.name);
    var q := Shift(env, v, base, ii);
    assert Number(env, v, q) == Number(env, v, base) + ii;
    assert Pitch(es[1 + i].name, es[1 + i].octave)
        == env.getNote(q.name, Fin(q.octave), shift, v.keySignature, v.moveable, None, Some(env.temperament));
  }

  /** Corrected: the i-th interval tone lies the interval plus the shift above the heard
      pitch, the same shift its base received. */
  lemma CorrectedIntervalShiftedOnce(env: Env, v: Voice, delta: int, heard: HeardPitch, hertz: real, i: int)
    requires Transposes(env, v)
    requires 0 <= i < |v.intervals|
    ensures var es := CorrectedChordEntries(env, v, delta, heard, hertz);
      var n := Number(env, v, Pitch(heard.name, heard.octave));
      var shift := AddPitchShift(v, delta);
      && Number(env, v, Pitch(es[0].name, es[0].octave)) == n + shift
      && Number(env, v, Pitch(es[1 + i].name, es[1 + i].octave))
           == n + shift + env.getInterval(v.intervals[i], v.keySignature, es[0].name)
  {
    var es := CorrectedChordEntries(env, v, delta, heard, hertz);
    var base := Pitch(es[0].name, es[0].octave);
    var ii := env.getInterval(v.intervals[i], v.keySignature, base.name);
    assert Pitch(es[1 + i].name, es[1 + i].octave) == Shift(env, v, base, ii);
  }

  /** As written: the j-th semitone-interval tone lies its semitones plus twice the shift
      above the heard pitch. */
  lemma SemitoneShiftedTwice(env: Env, v: Voice, delta: int, heard: HeardPitch, hertz: real, j: int)
    requires Transposes(env, v)
    requires 0 <= j < |v.semitoneIntervals|
    ensures var es := ChordEntries(env, v, delta, heard, hertz);
      var n := Number(env, v, Pitch(heard.name, heard.octave));
      var k := 1 + |v.intervals| + j;
      Number(env, v, Pitch(es[k].name, es[k].octave))
        == n + 2 * AddPitchShift(v, delta) + v.semitoneIntervals[j].semitones
  {
    ChordTones(env, v, delta, heard, hertz);
    var es := ChordEntries(env, v, delta, heard, hertz);
    var shift := AddPitchShift(v, delta);
    var base := Pitch(es[0].name, es[0].octave);
    var si := v.semitoneIntervals[j];
    var q := Shift(env, v, base, si.semitones);
    assert Number(env, v, q) == Number(env, v, base) + si.semitones;
    assert Pitch(es[1 + |v.intervals| + j].name, es[1 + |v.intervals| + j].octave)
        == env.getNote(q.name, Fin(q.octave), shift, v.keySignature, v.moveable, Some(si.direction), Some(env.temperament));
  }

  /** Corrected: the j-th semitone-interval tone lies its semitones plus the shift above
      the heard pitch. */
  lemma CorrectedSemitoneShiftedOnce(env: Env, v: Voice, delta: int, heard: HeardPitch, hertz: real, j: int)
    requires Transposes(env, v)
    requires 0 <= j < |v.semitoneIntervals|
    ensures var es := CorrectedChordEntries(env, v, delta, heard, hertz);
      var n := Number(env, v, Pitch(heard.name, heard.octave));
      var k := 1 + |v.intervals| + j;
      Number(env, v, Pitch(es[k].name, es[k].octave))
        == n + AddPitchShift(v, delta) + v.semitoneIntervals[j].semitones
  {
    var es := CorrectedChordEntries(env, v, delta, heard, hertz);
    assert Number(env, v, Pitch(es[0].name, es[0].octave)) == Number(env, v, Pitch(heard.name, heard.octave)) + AddPitchShift(v, delta);
  }

  /** The k-th appended entry is the k-th new pitch of the event. */
  lemma AppendedPitch(ev: NoteEvent, es: seq<Entry>, beat: real, k: int)
    requires 0 <= k < |es|
    ensures var r := Append(ev, es, beat);
      && |r.pitches| > |ev.pitches| + k && |r.octaves| > |ev.octaves| + k
      && Pitch(r.pitches[|ev.pitches| + k], r.octaves[|ev.octaves| + k]) == Pitch(es[k].name, es[k].octave)
  {
  }

  /** What the hertz block records: in the innermost open Note block, the i-th interval
      tone that `PlayHertz` appends to notePitches and noteOctaves lies its interval plus
      twice the addPitch shift above the heard pitch, and the base pitch lies the shift
      above it. */
  lemma PlayHertzRecordsDoubleShift(env: Env, v: Voice, hertz: real, i: int)
    requires Transposes(env, v)
    requires |v.justMeasuring| == 0 && |v.inNoteBlock| > 0
    requires v.inNoteBlock[|v.inNoteBlock| - 1] in v.notes
    requires 0 <= i < |v.intervals|
    ensures PlayHertz(env, v, hertz).Success?
    ensures var top := v.inNoteBlock[|v.inNoteBlock| - 1];
      var ev := v.notes[top];
      var ev' := PlayHertz(env, v, hertz).value.notes[top];
      var heard := env.frequencyToPitch(hertz);
      var n := Number(env, v, Pitch(heard.name, heard.octave));
      var shift := AddPitchShift(v, InvertDelta(env, v, heard));
      && |ev'.pitches| > |ev.pitches| + 1 + i && |ev'.octaves| > |ev.octaves| + 1 + i
      && Number(env, v, Pitch(ev'.pitches[|ev.pitches|], ev'.octaves[|ev.octaves|])) == n + shift
      && Number(env, v, Pitch(ev'.pitches[|ev.pitches| + 1 + i], ev'.octaves[|ev.octaves| + 1 + i]))
           == n + 2 * shift + env.getInterval(v.intervals[i], v.keySignature, ev'.pitches[|ev.pitches|])
  {
    var heard := env.frequencyToPitch(hertz);
    var delta := InvertDelta(env, v, heard);
    var top := v.inNoteBlock[|v.inNoteBlock| - 1];
    var ev := v.notes[top];
    var es := ChordEntries(env, v, delta, heard, hertz);
    PlayHertzRecordsChord(env, v, hertz);
    var ev' := Append(ev, es, v.beatFactor);
    assert PlayHertz(env, v, hertz).value.notes[top] == ev';
    AppendedPitch(ev, es, v.beatFactor, 0);
    AppendedPitch(ev, es, v.beatFactor, 1 + i);
    IntervalShiftedTwice(env, v, delta, heard, hertz, i);
  }

  /** A chromatic stand-in for the pitch helpers: a pitch number is the octave field itself,
      getNote adds the shift to it, and every interval is a fifth (7 semitones). */
  function Chromatic(): (env: Env)
    ensures forall v: Voice :: v.keySignature == "C major" && !v.moveable ==> Transposes(env, v)
  {
    Env("equal", "C4", [], [],
        (hz: real) => HeardPitch("A", 0, 0.0),
        (name: string, o: Num, s: int, key: string, moveable: bool, d: Option<int>, t: Option<string>) =>
          Pitch(name, (if o.Fin? then o.n else 0) + s),
        (interval: int, key: string, name: string) => 7,
        (n: int, t: Option<string>, start: Option<string>, offset: Option<int>) => Pitch("A", n),
        (name: string, o: Num, key: string) => if o.Fin? then o.n else 0,
        (current: int, o: real, last: Option<string>, name: string) => o,
        (key: string, name: string, d: Option<int>, t: Option<string>) => 2,
        (key: string, name: string, d: Option<int>, t: Option<string>) => -2,
        (inversions: seq<Inversion>, key: string, moveable: bool, name: string, o: int) => 0,
        (v: Voice, name: string, o: int, cents: real) => v)
  }

  /** The input that shows it: one register up (a shift of 12) and one interval, a fifth.
      The base lands 12 semitones up, the fifth lands 31 up instead of 19. */
  lemma DoubleShiftExample(v: Voice)
    requires v.keySignature == "C major" && !v.moveable
    requires v.register == 1 && v.turtleTransposition == 0
    requires |v.intervals| == 1 && |v.semitoneIntervals| == 0
    ensures var heard := HeardPitch("A", 0, 0.0);
      && ChordEntries(Chromatic(), v, 0, heard, 440.0)[0].octave == 12
      && ChordEntries(Chromatic(), v, 0, heard, 440.0)[1].octave == 31
      && CorrectedChordEntries(Chromatic(), v, 0, heard, 440.0)[1].octave == 19
  {
    var env := Chromatic();
    var heard := HeardPitch("A", 0, 0.0);
    IntervalShiftedTwice(env, v, 0, heard, 440.0, 0);
    CorrectedIntervalShiftedOnce(env, v, 0, heard, 440.0, 0);
  }
}

=== FILE: delta_pitch.dfy ===
/** The delta-pitch and consonant-step blocks, which look at the last two notes played.
    A note string is split by the last-character rule of `Notes.SplitNote`. */
module DeltaPitch {

  import opened Outcomes
  import opened Notes
  import opened Voices
  import opened Host

  /** One step of the scalar walk: its size in semitones and the spelling it reaches. */
  datatype Step = Step(size: int, next: Spelling)

  /** The step from a spelling, up or down the voice's key (getStepSizeUp/Down with
      direction 0 and "equal" temperament), and the note getNote reaches by that many
      semitones. */
  function StepFrom(env: Env, v: Voice, s: Spelling, up: bool): (st: Step)
    ensures st.size == if up then env.stepSizeUp(v.keySignature, s.name, Some(0), Some("equal"))
                       else env.stepSizeDown(v.keySignature, s.name, Some(0), Some("equal"))
    ensures st.next.octave.Fin?
    ensures Pitch(st.next.name, st.next.octave.n)
         == env.getNote(s.name, s.octave, st.size, v.keySignature, v.moveable, None, Some(env.temperament))
    ensures WalkMoves(env, v) ==> (up ==> st.size >= 1) && (!up ==> st.size <= -1)
  {
    var nhalf := if up then env.stepSizeUp(v.keySignature, s.name, Some(0), Some("equal"))
                 else env.stepSizeDown(v.keySignature, s.name, Some(0), Some("equal"));
    var p := env.getNote(s.name, s.octave, nhalf, v.keySignature, v.moveable, None, Some(env.temperament));
    Step(nhalf, Spelling(p.name, Fin(p.octave)))
  }

  /** The walk terminates only if steps up go up and steps down go down: the iteration guard
      in `deltaPitch` leaves the step closure, not the loop around it. */
  ghost predicate WalkMoves(env: Env, v: Voice) {
    StepSizesPointOutward(env, v.keySignature, Some(0), Some("equal"))
  }

  /** The semitones covered by the first k steps from s. */
  function Covered(env: Env, v: Voice, s: Spelling, up: bool, k: nat): int
    decreases k
  {
    if k == 0 then 0
    else
      var st := StepFrom(env, v, s, up);
      st.size + Covered(env, v, st.next, up, k - 1)
  }

  /** The number of steps up the `while (delta > 0)` loop takes. */
  function StepsUp(env: Env, v: Voice, s: Spelling, delta: int): (k: nat)
    requires delta > 0
    requires WalkMoves(env, v)
    ensures 1 <= k <= delta
    decreases delta
  {
    var st := StepFrom(env, v, s, true);
    if delta - st.size > 0 then 1 + StepsUp(env, v, st.next, delta - st.size) else 1
  }

  /** The number of steps down the `while (delta < 0)` loop takes. */
  function StepsDown(env: Env, v: Voice, s: Spelling, delta: int): (k: nat)
    requires delta < 0
    requires WalkMoves(env, v)
    ensures 1 <= k <= -delta
    decreases -delta
  {
    var st := StepFrom(env, v, s, false);
    if delta - st.size < 0 then 1 + StepsDown(env, v, st.next, delta - st.size) else 1
  }

  /** Under `WalkMoves` every step up adds semitones and every step down takes them away,
      so the distance covered grows strictly with the number of steps, in the walk's
      direction. */
  lemma {:induction false} CoveredMonotone(env: Env, v: Voice, s: Spelling, up: bool, j: nat, k: nat)
    requires WalkMoves(env, v)
    requires j < k
    ensures up ==> Covered(env, v, s, up, j) < Covered(env, v, s, up, k)
    ensures !up ==> Covered(env, v, s, up, j) > Covered(env, v, s, up, k)
    decreases k
  {
    var st := StepFrom(env, v, s, up);
    if j == 0 {
      if k - 1 > 0 {
        CoveredMonotone(env, v, st.next, up, 0, k - 1);
      }
    } else {
      CoveredMonotone(env, v, st.next, up, j - 1, k - 1);
    }
  }

  /** The up loop stops at the first number of steps whose sizes add up to the delta. */
  lemma {:induction false} StepsUpIsLeastCover(env: Env, v: Voice, s: Spelling, delta: int)
    requires delta > 0
    requires WalkMoves(env, v)
    ensures Covered(env, v, s, true, StepsUp(env, v, s, delta)) >= delta
    ensures forall j :: 0 <= j < StepsUp(env, v, s, delta) ==> Covered(env, v, s, true, j) < delta
    decreases delta
  {
    var k := StepsUp(env, v, s, delta);
    var st := StepFrom(env, v, s, true);
    if delta - st.size > 0 {
      StepsUpIsLeastCover(env, v, st.next, delta - st.size);
    }
    assert Covered(env, v, s, true, k - 1) < delta;
    forall j | 0 <= j < k - 1
      ensures Covered(env, v, s, true, j) < delta
    {
      CoveredMonotone(env, v, s, true, j, k - 1);
    }
  }

  /** The down loop stops at the first number of steps whose sizes reach down to the delta. */
  lemma {:induction false} StepsDownIsLeastCover(env: Env, v: Voice, s: Spelling, delta: int)
    requires delta < 0
    requires WalkMoves(env, v)
    ensures Covered(env, v, s, false, StepsDown(env, v, s, delta)) <= delta
    ensures forall j :: 0 <= j < StepsDown(env, v, s, delta) ==> Covered(env, v, s, false, j) > delta
    decreases -delta
  {
    var k := StepsDown(env, v, s, delta);
    var st := StepFrom(env, v, s, false);
    if delta - st.size < 0 {
      StepsDownIsLeastCover(env, v, st.next, delta - st.size);
    }
    assert Covered(env, v, s, false, k - 1) > delta;
    forall j | 0 <= j < k - 1
      ensures Covered(env, v, s, false, j) > delta
    {
      CoveredMonotone(env, v, s, false, j, k - 1);
    }
  }

  /** The pitch number of a played-note string. */
  function NoteNumber(env: Env, v: Voice, note: string): int {
    var sp := SplitNote(note);
    env.pitchToNumber(sp.name, sp.octave, v.keySignature)
  }

  /** The delta-pitch block. With no previous note it returns 0. "deltapitch" returns the
      semitone difference from the previous note to the last; any other output type walks
      that difference in scale steps from the last note and returns the signed step count. */
  function DeltaPitch(env: Env, v: Voice, outType: string): (r: Result<int>)
    requires (&& outType != "deltapitch"
              && v.previousNotePlayed.Some? && v.lastNotePlayed.Some?
              && NoteNumber(env, v, v.lastNotePlayed.value) != NoteNumber(env, v, v.previousNotePlayed.value))
             ==> WalkMoves(env, v)
    ensures v.previousNotePlayed.None? ==> r == Success(0)
    ensures v.previousNotePlayed.Some? && v.lastNotePlayed.None? ==> r == Failure(TypeError)
    ensures v.previousNotePlayed.Some? && v.lastNotePlayed.Some? ==>
              var d := NoteNumber(env, v, v.lastNotePlayed.value) - NoteNumber(env, v, v.previousNotePlayed.value);
              && r.Success?
              && (outType == "deltapitch" ==> r.value == d)
              && (outType != "deltapitch" ==>
                    && (d > 0 ==> 1 <= r.value <= d)
                    && (d < 0 ==> d <= r.value <= -1)
                    && (d == 0 ==> r.value == 0))
  {
    match v.previousNotePlayed
    case None => Success(0)
    case Some(previous) =>
      match v.lastNotePlayed
      case None => Failure(TypeError)
      case Some(last) =>
        var delta := NoteNumber(env, v, last) - NoteNumber(env, v, previous);
        if outType == "deltapitch" then Success(delta)
        else if delta > 0 then Success(StepsUp(env, v, SplitNote(last), delta))
        else if delta < 0 then
          var steps: int := StepsDown(env, v, SplitNote(last), delta);
          Success(-steps)
        else Success(0)
  }

  /** For notes written with a one-digit octave, "deltapitch" is the difference of the two
      pitch numbers of the names and octaves the notes were written from. */
  lemma DeltaPitchOfNoteStrings(env: Env, v: Voice, previous: Pitch, last: Pitch)
    requires 0 <= previous.octave <= 9 && 0 <= last.octave <= 9
    requires v.previousNotePlayed == Some(NoteString(previous))
    requires v.lastNotePlayed == Some(NoteString(last))
    ensures DeltaPitch(env, v, "deltapitch")
         == Success(env.pitchToNumber(last.name, Fin(last.octave), v.keySignature)
                    - env.pitchToNumber(previous.name, Fin(previous.octave), v.keySignature))
  {
  }

  /** The scalar delta is the least number of scale steps from the last note that covers
      the semitone delta, counted negative going down. */
  lemma ScalarDeltaIsLeastCover(env: Env, v: Voice, outType: string)
    requires outType != "deltapitch" && WalkMoves(env, v)
    requires v.previousNotePlayed.Some? && v.lastNotePlayed.Some?
    ensures var d := NoteNumber(env, v, v.lastNotePlayed.value) - NoteNumber(env, v, v.previousNotePlayed.value);
      var k := DeltaPitch(env, v, outType).value;
      var s := SplitNote(v.lastNotePlayed.value);
      && (d > 0 ==> && Covered(env, v, s, true, k) >= d
                    && forall j :: 0 <= j < k ==> Covered(env, v, s, true, j) < d)
      && (d < 0 ==> && Covered(env, v, s, false, -k) <= d
                    && forall j :: 0 <= j < -k ==> Covered(env, v, s, false, j) > d)
  {
    var d := NoteNumber(env, v, v.lastNotePlayed.value) - NoteNumber(env, v, v.previousNotePlayed.value);
    var s := SplitNote(v.lastNotePlayed.value);
    if d > 0 {
      StepsUpIsLeastCover(env, v, s, d);
    } else if d < 0 {
      StepsDownIsLeastCover(env, v, s, d);
    }
  }

  /** The note name the consonant-step block asks about: the last note's name, or "G". */
  function ConsonantName(v: Voice): string {
    match v.lastNotePlayed
    case Some(last) => SplitNote(last).name
    case None => "G"
  }

  /** The consonant-step block: the step size up (for "up") or down (anything else) from the
      last note played, or from G when none has been. */
  function ConsonantStepSize(env: Env, v: Voice, stepType: string): (r: int)
    ensures StepSizesPointOutward(env, v.keySignature, None, None) ==>
              (stepType == "up" ==> r >= 1) && (stepType != "up" ==> r <= -1)
  {
    if stepType == "up" then env.stepSizeUp(v.keySignature, ConsonantName(v), None, None)
    else env.stepSizeDown(v.keySignature, ConsonantName(v), None, None)
  }

  /** For a note written with a one-digit octave the step is taken from its name, with the
      octave digit stripped; with no note played it is taken from G. */
  lemma ConsonantStepOfNoteString(env: Env, v: Voice, last: Pitch)
    requires 0 <= last.octave <= 9
    ensures v.lastNotePlayed == Some(NoteString(last)) ==>
              && ConsonantStepSize(env, v, "up") == env.stepSizeUp(v.keySignature, last.name, None, None)
              && ConsonantStepSize(env, v, "down") == env.stepSizeDown(v.keySignature, last.name, None, None)
    ensures v.lastNotePlayed.None? ==>
              && ConsonantStepSize(env, v, "up") == env.stepSizeUp(v.keySignature, "G", None, None)
              && ConsonantStepSize(env, v, "down") == env.stepSizeDown(v.keySignature, "G", None, None)
  {
  }
}

=== FILE: host.dfy ===
/** The collaborators of the pitch actions whose code is not part of this model: the music
    theory helpers, the synth settings and the accidental tables. Each is a total function
    (or value) supplied by the caller; the model assumes of them only what the predicates
    below state, and only where a contract says so. Every helper is taken to return finite
    numbers: integers, except calcOctave's octave and the cents, which are reals. */
module Host {

  import opened Outcomes
  import opened Notes
  import opened Voices

  /** What frequencyToPitch returns: [name, octave, cents]. */
  datatype HeardPitch = HeardPitch(name: string, octave: int, cents: real)

  datatype Env = Env(
    /** logo.synth.inTemperament and logo.synth.startingPitch. */
    temperament: string,
    startingPitch: string,
    /** ACCIDENTALNAMES and ACCIDENTALVALUES. */
    accidentalNames: seq<string>,
    accidentalValues: seq<int>,
    frequencyToPitch: real -> HeardPitch,
    /** getNote(name, octave, shift, keySignature, moveable, direction, temperament). */
    getNote: (string, Num, int, string, bool, Option<int>, Option<string>) -> Pitch,
    /** getInterval(interval, keySignature, name). */
    getInterval: (int, string, string) -> int,
    /** numberToPitch(number, temperament, startingPitch, offset). */
    numberToPitch: (int, Option<string>, Option<string>, Option<int>) -> Pitch,
    /** pitchToNumber(name, octave, keySignature). */
    pitchToNumber: (string, Num, string) -> int,
    /** calcOctave(currentOctave, octave, lastNotePlayed, name). */
    calcOctave: (int, real, Option<string>, string) -> real,
    /** getStepSizeUp / getStepSizeDown(keySignature, name, direction, temperament). */
    stepSizeUp: (string, string, Option<int>, Option<string>) -> int,
    stepSizeDown: (string, string, Option<int>, Option<string>) -> int,
    /** Singer.calculateInvert, assumed to read only the inversion records, the key
        signature and the moveable flag of the voice, and the note and octave to mirror. */
    calculateInvert: (seq<Inversion>, string, bool, string, int) -> int,
    /** Singer.processPitch(name, octave, cents) acting on the voice. */
    processPitch: (Voice, string, int, real) -> Voice)

  /** ACCIDENTALVALUES has an entry for every index of ACCIDENTALNAMES. */
  predicate AccidentalTablesAligned(env: Env) {
    |env.accidentalNames| <= |env.accidentalValues|
  }

  /** In this key, with these extra arguments, a step up is at least one semitone up and a
      step down at least one semitone down, whatever the note name. */
  ghost predicate StepSizesPointOutward(env: Env, key: string, direction: Option<int>, temperament: Option<string>) {
    && (forall name: string :: env.stepSizeUp(key, name, direction, temperament) >= 1)
    && (forall name: string :: env.stepSizeDown(key, name, direction, temperament) <= -1)
  }
}

=== FILE: modifiers.dfy ===
/** The accidental and semitone-transpose blocks. Entering one shifts singer.transposition
    and hands back the listener that the block's exit fires; the listener is modelled as an
    explicit `Undo` value that `RunUndo` applies at scope exit. */
module Modifiers {

  import opened Outcomes
  import opened Voices
  import opened Host

  /** The undo listener of a modifier block. An accidental listener keeps the value it was
      entered with; a semitone-transpose listener pops the value stack instead, so every
      such listener does the same thing whichever of them fires. */
  datatype Undo = UndoAccidental(value: int) | UndoSemitone

  /** The voice after entering a modifier block, and the listener it registered, if any. */
  datatype Entered = Entered(voice: Voice, undo: Option<Undo>)

  /** Array.prototype.indexOf on a list of strings: the first index holding x, or -1. */
  function IndexOf(s: seq<string>, x: string): (i: int)
    ensures -1 <= i < |s|
    ensures i == -1 <==> x !in s
    ensures 0 <= i ==> s[i] == x && x !in s[..i]
  {
    if |s| == 0 then -1
    else if s[0] == x then 0
    else
      var j := IndexOf(s[1..], x);
      if j == -1 then -1
      else
        assert s[..j + 1] == [s[0]] + s[1..][..j];
        j + 1
  }

  /** The accidental value of a token: the value at the first index where the accidental
      names hold the token, and none for any other token, the localised "sharp" and "flat"
      included. */
  function AccidentalValue(env: Env, token: string): (r: Option<int>)
    requires AccidentalTablesAligned(env)
    ensures r.None? <==> token !in env.accidentalNames
    ensures forall i ::
              (0 <= i < |env.accidentalNames| && env.accidentalNames[i] == token
               && token !in env.accidentalNames[..i]) ==> r == Some(env.accidentalValues[i])
  {
    var i := IndexOf(env.accidentalNames, token);
    if i == -1 then None else Some(env.accidentalValues[i])
  }

  /** The accidental block. A token with an accidental value shifts the transposition by
      that value, negated under inversion, and registers the listener that undoes it; no
      other field changes. Any other token returns before touching the voice and registers
      nothing. */
  function SetAccidental(env: Env, v: Voice, token: string): (r: Entered)
    requires AccidentalTablesAligned(env)
    ensures token !in env.accidentalNames ==> r == Entered(v, None)
    ensures token in env.accidentalNames ==>
              var value := AccidentalValue(env, token).value;
              && r.undo == Some(UndoAccidental(value))
              && r.voice == v.(transposition := r.voice.transposition)
              && r.voice.transposition - v.transposition == (if Inverted(v) then -value else value)
  {
    match AccidentalValue(env, token)
    case None => Entered(v, None)
    case Some(value) =>
      Entered(v.(transposition := v.transposition + Signed(v, value)), Some(UndoAccidental(value)))
  }

  /** The semitone-transpose block: shifts the transposition by the amount (negated under
      inversion), pushes the amount on the value stack and always registers a listener. */
  function SetSemitoneTranspose(v: Voice, amount: int): (r: Entered)
    ensures r.undo == Some(UndoSemitone)
    ensures r.voice.transpositionValues == v.transpositionValues + [amount]
    ensures r.voice.transposition - v.transposition == (if Inverted(v) then -amount else amount)
    ensures r.voice == v.(transposition := r.voice.transposition, transpositionValues := r.voice.transpositionValues)
  {
    Entered(v.(transposition := v.transposition + Signed(v, amount),
               transpositionValues := v.transpositionValues + [amount]),
            Some(UndoSemitone))
  }

  /** Fires a listener. The inversion state is read at exit time, not entry time. A
      semitone listener on an empty value stack adds undefined, leaving NaN. */
  function RunUndo(v: Voice, u: Undo): (r: Result<Voice>)
    ensures r.Failure? <==> u.UndoSemitone? && |v.transpositionValues| == 0
    ensures r.Failure? ==> r.error == NaNTransposition
    ensures r.Success? && u.UndoAccidental? ==>
              r.value == v.(transposition := v.transposition + (if Inverted(v) then u.value else -u.value))
    ensures r.Success? && u.UndoSemitone? ==>
              var popped := v.transpositionValues[|v.transpositionValues| - 1];
              && r.value.transpositionValues + [popped] == v.transpositionValues
              && r.value.transposition == v.transposition + (if Inverted(v) then popped else -popped)
              && r.value == v.(transposition := r.value.transposition,
                               transpositionValues := r.value.transpositionValues)
  {
    match u
    case UndoAccidental(value) =>
      Success(v.(transposition := v.transposition - Signed(v, value)))
    case UndoSemitone =>
      if |v.transpositionValues| == 0 then Failure(NaNTransposition)
      else
        var n := |v.transpositionValues|;
        var value := v.transpositionValues[n - 1];
        Success(v.(transposition := v.transposition - Signed(v, value),
                   transpositionValues := v.transpositionValues[..n - 1]))
  }

  /** Scope exit: fires the registered listener, or does nothing when none was registered. */
  function ExitScope(v: Voice, u: Option<Undo>): (r: Result<Voice>)
    ensures u.None? ==> r == Success(v)
    ensures u.Some? ==> r == RunUndo(v, u.value)
    ensures r.Success? ==> r.value.invertList == v.invertList
  {
    match u
    case None => Success(v)
    case Some(undo) => RunUndo(v, undo)
  }

  /** An accidental listener that takes the transposition to t leaves the rest alone. */
  lemma AccidentalUndoLands(w: Voice, value: int, t: int)
    requires w.transposition - Signed(w, value) == t
    ensures ExitScope(w, Some(UndoAccidental(value))) == Success(w.(transposition := t))
  {
  }

  /** Whatever ran in between, if the transposition state is where the accidental entry
      left it and the inversion state is as it was at entry, exit restores the transposition
      of before the entry and changes nothing else. */
  lemma AccidentalExitUndoesEntry(env: Env, v: Voice, token: string, w: Voice)
    requires AccidentalTablesAligned(env)
    ensures w.transposition == SetAccidental(env, v, token).voice.transposition && Inverted(w) == Inverted(v) ==>
              ExitScope(w, SetAccidental(env, v, token).undo) == Success(w.(transposition := v.transposition))
  {
    var e := SetAccidental(env, v, token);
    if w.transposition == e.voice.transposition && Inverted(w) == Inverted(v) {
      match AccidentalValue(env, token)
      case None =>
        assert e.undo.None? && e.voice.transposition == v.transposition;
        assert w.(transposition := v.transposition) == w;
      case Some(value) =>
        assert e.undo == Some(UndoAccidental(value));
        assert e.voice.transposition == v.transposition + Signed(v, value);
        AccidentalUndoLands(w, value, v.transposition);
    }
  }

  /** The same for a semitone transpose: the pop takes back exactly the pushed amount, so
      both the transposition and the value stack return to their values before entry. */
  lemma SemitoneExitUndoesEntry(v: Voice, amount: int, w: Voice)
    requires w.transposition == SetSemitoneTranspose(v, amount).voice.transposition
    requires w.transpositionValues == SetSemitoneTranspose(v, amount).voice.transpositionValues
    requires Inverted(w) == Inverted(v)
    ensures ExitScope(w, SetSemitoneTranspose(v, amount).undo)
         == Success(w.(transposition := v.transposition, transpositionValues := v.transpositionValues))
  {
  }

  /** The listeners read the inversion state when they fire. If an inversion began or ended
      between a modifier's entry and its exit, the exit shifts the same way as the entry did
      instead of undoing it, leaving the transposition at twice the entry shift. */
  lemma AccidentalExitAfterInversionChange(env: Env, v: Voice, token: string, w: Voice)
    requires AccidentalTablesAligned(env)
    ensures var e := SetAccidental(env, v, token);
      e.undo.Some? && w.transposition == e.voice.transposition && Inverted(w) != Inverted(v) ==>
        ExitScope(w, e.undo)
          == Success(w.(transposition := v.transposition + 2 * Signed(v, AccidentalValue(env, token).value)))
  {
    var e := SetAccidental(env, v, token);
    if e.undo.Some? && w.transposition == e.voice.transposition && Inverted(w) != Inverted(v) {
      var value := AccidentalValue(env, token).value;
      assert e.undo == Some(UndoAccidental(value));
      assert e.voice.transposition == v.transposition + Signed(v, value);
      AccidentalUndoLands(w, value, v.transposition + 2 * Signed(v, value));
    }
  }

  /** The same for a semitone transpose: the pushed amount is popped, but added again. */
  lemma SemitoneExitAfterInversionChange(v: Voice, amount: int, w: Voice)
    requires w.transposition == SetSemitoneTranspose(v, amount).voice.transposition
    requires w.transpositionValues == SetSemitoneTranspose(v, amount).voice.transpositionValues
    requires Inverted(w) != Inverted(v)
    ensures ExitScope(w, SetSemitoneTranspose(v, amount).undo)
         == Success(w.(transposition := v.transposition + 2 * Signed(v, amount),
                       transpositionValues := v.transpositionValues))
  {
    assert (v.transpositionValues + [amount])[..|v.transpositionValues|] == v.transpositionValues;
  }
}

=== FILE: note_events.dfy ===
/** The hertz block: a frequency is either measured (while a measure block is open) or
    added, with the voice's intervals and semitone intervals, to the note event of the
    innermost open Note block. */
module NoteEvents {

  import opened Outcomes
  import opened Notes
  import opened Voices
  import opened Host

  /** One pitch added to a note event: a row of the four per-pitch arrays. */
  datatype Entry = Entry(name: string, octave: int, cents: real, hertz: real)

  /** The shift addPitch applies: twice the inversion delta, plus tur.transposition, plus
      twelve semitones per register step. It reads tur.transposition, not the
      singer.transposition that the modifier blocks change. */
  function AddPitchShift(v: Voice, delta: int): int {
    2 * delta + v.turtleTransposition + v.register * 12
  }

  /** The shift follows tur.transposition and the register one for one (twelve semitones a
      register step) and ignores singer.transposition and its value stack. */
  lemma AddPitchShiftTracksTurtle(v: Voice, delta: int, t: int, register: int, t': int, values: seq<int>)
    ensures var w := v.(turtleTransposition := t, register := register,
                        transposition := t', transpositionValues := values);
      AddPitchShift(w, delta) - AddPitchShift(v, delta)
        == (t - v.turtleTransposition) + 12 * (register - v.register)
  {
  }

  /** addPitch: the pitch, resolved under the voice's shift, as an entry with the given cents
      and frequency. */
  function AddPitch(env: Env, v: Voice, delta: int, p: Pitch, cents: real, hertz: real,
                    direction: Option<int>): (e: Entry)
    ensures e.cents == cents && e.hertz == hertz
    ensures Pitch(e.name, e.octave)
         == env.getNote(p.name, Fin(p.octave), AddPitchShift(v, delta), v.keySignature,
                        v.moveable, direction, Some(env.temperament))
  {
    var q := env.getNote(p.name, Fin(p.octave), AddPitchShift(v, delta), v.keySignature,
                         v.moveable, direction, Some(env.temperament));
    Entry(q.name, q.octave, cents, hertz)
  }

  /** getNote with no direction, under the synth's temperament. */
  function Shift(env: Env, v: Voice, p: Pitch, shift: int): Pitch {
    env.getNote(p.name, Fin(p.octave), shift, v.keySignature, v.moveable, None, Some(env.temperament))
  }

  /** The entry for the i-th interval, measured from the resolved base pitch. */
  function IntervalEntry(env: Env, v: Voice, delta: int, base: Pitch, cents: real, i: int): Entry
    requires 0 <= i < |v.intervals|
  {
    var ii := env.getInterval(v.intervals[i], v.keySignature, base.name);
    AddPitch(env, v, delta, Shift(env, v, base, ii), cents, 0.0, None)
  }

  /** The entry for the i-th semitone interval, carrying that interval's direction. */
  function SemitoneEntry(env: Env, v: Voice, delta: int, base: Pitch, cents: real, i: int): Entry
    requires 0 <= i < |v.semitoneIntervals|
  {
    var si := v.semitoneIntervals[i];
    AddPitch(env, v, delta, Shift(env, v, base, si.semitones), cents, 0.0, Some(si.direction))
  }

  /** All entries one hertz block adds: the base pitch first, then one per interval, then one
      per semitone interval. Only the first carries the frequency; all carry the cents of the
      heard pitch. `ChordTones` states how the later pitches are reached. */
  function ChordEntries(env: Env, v: Voice, delta: int, heard: HeardPitch, hertz: real): (es: seq<Entry>)
    ensures |es| == 1 + |v.intervals| + |v.semitoneIntervals|
    ensures es[0].hertz == hertz
    ensures forall i :: 1 <= i < |es| ==> es[i].hertz == 0.0
    ensures forall i :: 0 <= i < |es| ==> es[i].cents == heard.cents
    ensures es[0] == AddPitch(env, v, delta, Pitch(heard.name, heard.octave), heard.cents, hertz, None)
  {
    var first := AddPitch(env, v, delta, Pitch(heard.name, heard.octave), heard.cents, hertz, None);
    var base := Pitch(first.name, first.octave);
    [first]
    + seq(|v.intervals|, i requires 0 <= i < |v.intervals| => IntervalEntry(env, v, delta, base, heard.cents, i))
    + seq(|v.semitoneIntervals|, i requires 0 <= i < |v.semitoneIntervals| => SemitoneEntry(env, v, delta, base, heard.cents, i))
  }

  /** The base is the heard pitch under the addPitch shift. Each interval or semitone
      interval is measured from that already shifted base and then goes through addPitch
      again, so it receives the shift a second time. */
  lemma ChordTones(env: Env, v: Voice, delta: int, heard: HeardPitch, hertz: real)
    ensures var es := ChordEntries(env, v, delta, heard, hertz);
      var base := Pitch(es[0].name, es[0].octave);
      forall i :: 0 <= i < |v.intervals| ==>
        es[1 + i] == AddPitch(env, v, delta,
                              Shift(env, v, base, env.getInterval(v.intervals[i], v.keySignature, base.name)),
                              heard.cents, 0.0, None)
    ensures var es := ChordEntries(env, v, delta, heard, hertz);
      var base := Pitch(es[0].name, es[0].octave);
      forall j :: 0 <= j < |v.semitoneIntervals| ==>
        es[1 + |v.intervals| + j] == AddPitch(env, v, delta, Shift(env, v, base, v.semitoneIntervals[j].semitones),
                                              heard.cents, 0.0, Some(v.semitoneIntervals[j].direction))
  {
    var es := ChordEntries(env, v, delta, heard, hertz);
    var base := Pitch(es[0].name, es[0].octave);
    forall i | 0 <= i < |v.intervals|
      ensures es[1 + i] == IntervalEntry(env, v, delta, base, heard.cents, i)
    {
    }
    forall j | 0 <= j < |v.semitoneIntervals|
      ensures es[1 + |v.intervals| + j] == SemitoneEntry(env, v, delta, base, heard.cents, j)
    {
    }
  }

  /** Appends the entries to the four per-pitch arrays and the beat factor to the beat values. */
  function Append(ev: NoteEvent, es: seq<Entry>, beat: real): (r: NoteEvent)
    ensures |r.pitches| == |ev.pitches| + |es| && |r.octaves| == |ev.octaves| + |es|
    ensures |r.cents| == |ev.cents| + |es| && |r.hertz| == |ev.hertz| + |es|
    ensures r.beatValues == ev.beatValues + [beat]
    ensures r.pitches[..|ev.pitches|] == ev.pitches && r.octaves[..|ev.octaves|] == ev.octaves
    ensures r.cents[..|ev.cents|] == ev.cents && r.hertz[..|ev.hertz|] == ev.hertz
    ensures forall i :: 0 <= i < |es| ==>
              && r.pitches[|ev.pitches| + i] == es[i].name
              && r.octaves[|ev.octaves| + i] == es[i].octave
              && r.cents[|ev.cents| + i] == es[i].cents
              && r.hertz[|ev.hertz| + i] == es[i].hertz
  {
    NoteEvent(
      ev.pitches + seq(|es|, i requires 0 <= i < |es| => es[i].name),
      ev.octaves + seq(|es|, i requires 0 <= i < |es| => es[i].octave),
      ev.cents + seq(|es|, i requires 0 <= i < |es| => es[i].cents),
      ev.hertz + seq(|es|, i requires 0 <= i < |es| => es[i].hertz),
      ev.beatValues + [beat])
  }

  /** The pitch number a measure block records for a heard pitch: the number of the heard
      pitch as getNote spells it with no shift and no temperament, counted from the voice's
      pitch-number offset. */
  function MeasuredNumber(env: Env, v: Voice, heard: HeardPitch): int {
    var q := env.getNote(heard.name, Fin(heard.octave), 0, v.keySignature, v.moveable, None, None);
    env.pitchToNumber(q.name, Fin(q.octave), v.keySignature) - v.pitchNumberOffset
  }

  /** The measuring branch: the number goes to firstPitch while it is shorter than the number
      of open measure blocks, else to lastPitch while that is, else nowhere. */
  function Measure(v: Voice, pitchNumber: int): (r: Voice)
    ensures r == v.(firstPitch := r.firstPitch, lastPitch := r.lastPitch)
    ensures r.firstPitch == v.firstPitch
         || (|v.firstPitch| < |v.justMeasuring| && r.firstPitch == v.firstPitch + [pitchNumber])
    ensures r.lastPitch == v.lastPitch
         || (|v.firstPitch| >= |v.justMeasuring| && |v.lastPitch| < |v.justMeasuring|
             && r.lastPitch == v.lastPitch + [pitchNumber])
    ensures (r == v) <==> (|v.firstPitch| >= |v.justMeasuring| && |v.lastPitch| >= |v.justMeasuring|)
  {
    var n := |v.justMeasuring|;
    if |v.firstPitch| < n then v.(firstPitch := v.firstPitch + [pitchNumber])
    else if |v.lastPitch| < n then v.(lastPitch := v.lastPitch + [pitchNumber])
    else v
  }

  /** The inversion delta of the heard pitch: Singer.calculateInvert while an inversion is
      open, else 0. */
  function InvertDelta(env: Env, v: Voice, heard: HeardPitch): int {
    if |v.invertList| != 0
    then env.calculateInvert(v.invertList, v.keySignature, v.moveable, heard.name, heard.octave)
    else 0
  }

  /** The hertz block. Measuring takes precedence over an open Note block; with neither, it
      throws NoNoteError and changes nothing. A Note block whose arrays were never created
      fails on the first push, before any field changes. */
  function PlayHertz(env: Env, v: Voice, hertz: real): (r: Result<Voice>)
    ensures |v.justMeasuring| > 0 ==> r == Success(Measure(v, MeasuredNumber(env, v, env.frequencyToPitch(hertz))))
    ensures |v.justMeasuring| == 0 && |v.inNoteBlock| == 0 ==> r == Failure(NoNoteError)
    ensures |v.justMeasuring| == 0 && |v.inNoteBlock| > 0 ==>
              (r.Success? <==> v.inNoteBlock[|v.inNoteBlock| - 1] in v.notes)
    ensures r.Failure? ==> r.error == NoNoteError || r.error == TypeError
    ensures r.Failure? && r.error == TypeError ==>
              |v.justMeasuring| == 0 && |v.inNoteBlock| > 0 && v.inNoteBlock[|v.inNoteBlock| - 1] !in v.notes
    ensures r.Success? && |v.justMeasuring| == 0 ==>
              var top := v.inNoteBlock[|v.inNoteBlock| - 1];
              && top in v.notes
              && r.value == v.(notes := r.value.notes, pushedNote := true)
              && r.value.notes.Keys == v.notes.Keys
              && forall k :: k in v.notes && k != top ==> r.value.notes[k] == v.notes[k]
  {
    var heard := env.frequencyToPitch(hertz);
    if |v.justMeasuring| > 0 then
      Success(Measure(v, MeasuredNumber(env, v, heard)))
    else if |v.inNoteBlock| > 0 then
      var top := v.inNoteBlock[|v.inNoteBlock| - 1];
      var delta := InvertDelta(env, v, heard);
      if top !in v.notes then Failure(TypeError)
      else
        var es := ChordEntries(env, v, delta, heard, hertz);
        Success(v.(notes := v.notes[top := Append(v.notes[top], es, v.beatFactor)], pushedNote := true))
    else
      Failure(NoNoteError)
  }

  /** What one hertz block in a Note block records: the chord of the heard pitch, under the
      inversion delta, appended to the innermost open block's event. */
  lemma PlayHertzRecordsChord(env: Env, v: Voice, hertz: real)
    requires |v.justMeasuring| == 0 && |v.inNoteBlock| > 0
    requires v.inNoteBlock[|v.inNoteBlock| - 1] in v.notes
    ensures PlayHertz(env, v, hertz).Success?
    ensures var top := v.inNoteBlock[|v.inNoteBlock| - 1];
      var heard := env.frequencyToPitch(hertz);
      PlayHertz(env, v, hertz).value.notes[top]
        == Append(v.notes[top], ChordEntries(env, v, InvertDelta(env, v, heard), heard, hertz), v.beatFactor)
  {
  }

  /** One hertz block in a Note block grows the four per-pitch arrays of the innermost open
      block by one entry for the base pitch plus one per interval and per semitone interval,
      and its beat values by exactly one; the first new frequency is the input, the others
      are 0, and every new cents value is the cents of the heard pitch. */
  lemma NoteBlockLockStep(env: Env, v: Voice, hertz: real)
    requires |v.justMeasuring| == 0 && |v.inNoteBlock| > 0
    requires v.inNoteBlock[|v.inNoteBlock| - 1] in v.notes
    ensures PlayHertz(env, v, hertz).Success?
    ensures var top := v.inNoteBlock[|v.inNoteBlock| - 1];
      var ev := v.notes[top];
      var ev' := PlayHertz(env, v, hertz).value.notes[top];
      var k := 1 + |v.intervals| + |v.semitoneIntervals|;
      && |ev'.pitches| == |ev.pitches| + k
      && |ev'.octaves| == |ev.octaves| + k
      && |ev'.cents| == |ev.cents| + k
      && |ev'.hertz| == |ev.hertz| + k
      && |ev'.beatValues| == |ev.beatValues| + 1
      && ev'.hertz[|ev.hertz|] == hertz
      && (forall i :: |ev.hertz| < i < |ev'.hertz| ==> ev'.hertz[i] == 0.0)
      && (forall i :: |ev.cents| <= i < |ev'.cents| ==> ev'.cents[i] == env.frequencyToPitch(hertz).cents)
      && PlayHertz(env, v, hertz).value.pushedNote
  {
  }

  /** Hence a note event whose per-pitch arrays are in lock step stays so. */
  lemma PlayHertzKeepsLockStep(env: Env, v: Voice, hertz: real)
    requires forall k :: k in v.notes ==> LockStep(v.notes[k])
    ensures PlayHertz(env, v, hertz).Success? ==>
              forall k :: k in PlayHertz(env, v, hertz).value.notes ==> LockStep(PlayHertz(env, v, hertz).value.notes[k])
  {
  }

  /** While measuring, neither list of measured pitches grows beyond the number of open
      measure blocks, and the note events are untouched. */
  lemma MeasuringStaysBounded(env: Env, v: Voice, hertz: real)
    requires |v.justMeasuring| > 0
    requires |v.firstPitch| <= |v.justMeasuring| && |v.lastPitch| <= |v.justMeasuring|
    ensures PlayHertz(env, v, hertz).Success?
    ensures var w := PlayHertz(env, v, hertz).value;
      && |w.firstPitch| <= |v.justMeasuring| && |w.lastPitch| <= |v.justMeasuring|
      && |w.firstPitch| + |w.lastPitch| <= |v.firstPitch| + |v.lastPitch| + 1
      && (|w.lastPitch| > |v.lastPitch| ==> |v.firstPitch| == |v.justMeasuring|)
      && w.notes == v.notes
  {
  }

  /** The entries a hertz block adds do not depend on the transposition state. */
  lemma ChordEntriesIgnoreModifiers(env: Env, v: Voice, delta: int, heard: HeardPitch, hertz: real,
                                    t: int, values: seq<int>)
    ensures ChordEntries(env, v.(transposition := t, transpositionValues := values), delta, heard, hertz)
         == ChordEntries(env, v, delta, heard, hertz)
  {
  }

  /** The hertz block never reads singer.transposition: the modifier blocks do not reach the
      pitches it adds or the pitch numbers it measures. */
  lemma PlayHertzIgnoresModifiers(env: Env, v: Voice, hertz: real, t: int, values: seq<int>)
    ensures var v' := v.(transposition := t, transpositionValues := values);
      PlayHertz(env, v', hertz)
        == (if PlayHertz(env, v, hertz).Success?
            then Success(PlayHertz(env, v, hertz).value.(transposition := t, transpositionValues := values))
            else PlayHertz(env, v, hertz))
  {
    var v' := v.(transposition := t, transpositionValues := values);
    var heard := env.frequencyToPitch(hertz);
    if |v.justMeasuring| > 0 {
      assert MeasuredNumber(env, v', heard) == MeasuredNumber(env, v, heard);
    } else if |v.inNoteBlock| > 0 {
      var delta := InvertDelta(env, v, heard);
      ChordEntriesIgnoreModifiers(env, v, delta, heard, hertz, t, values);
    }
  }

  /** The hertz block leaves the transposition, the value stack and the inversion records as
      it found them. */
  lemma PlayHertzKeepsModifiers(env: Env, v: Voice, hertz: real)
    ensures PlayHertz(env, v, hertz).Success? ==>
              var w := PlayHertz(env, v, hertz).value;
              && w.transposition == v.transposition
              && w.transpositionValues == v.transpositionValues
              && w.invertList == v.invertList
  {
  }
}

=== FILE: notes.dfy ===
/** Note names, octaves, and the last-character rule that splits a played note string
    such as "G4" into its pitch name "G" and its octave 4. */
module Notes {

  import opened Outcomes

  /** A JavaScript number as it reaches an octave argument: an integer, or the NaN
      produced by parseInt on a character that is not a digit. */
  datatype Num = Fin(n: int) | NaN

  /** A spelled pitch as the pitch helpers return it: [name, octave]. */
  datatype Pitch = Pitch(name: string, octave: int)

  /** A note string split into name and (possibly NaN) octave. */
  datatype Spelling = Spelling(name: string, octave: Num)

  /** parseInt applied to a one-character string. */
  function DigitValue(c: char): (r: Option<int>)
    ensures r.Some? <==> '0' <= c <= '9'
    ensures r.Some? ==> 0 <= r.value <= 9 && c == DigitChar(r.value)
  {
    if '0' <= c <= '9' then Some(c as int - '0' as int) else None
  }

  /** The decimal digit character for 0..9. */
  function DigitChar(d: int): char
    requires 0 <= d <= 9
  {
    ('0' as int + d) as char
  }

  /** The octave is the last character of the string and the name is everything before it
      (slice(0, len - 1) and parseInt(slice(len - 1))); the empty string gives ("", NaN). */
  function SplitNote(s: string): (r: Spelling)
    ensures |s| == 0 ==> r == Spelling("", NaN)
    ensures |s| > 0 ==> s == r.name + [s[|s| - 1]]
    ensures r.octave.Fin? <==> |s| > 0 && '0' <= s[|s| - 1] <= '9'
    ensures r.octave.Fin? ==> 0 <= r.octave.n <= 9 && s == r.name + [DigitChar(r.octave.n)]
  {
    if |s| == 0 then Spelling("", NaN)
    else
      var octave := match DigitValue(s[|s| - 1])
        case Some(d) => Fin(d)
        case None => NaN;
      Spelling(s[..|s| - 1], octave)
  }

  /** The played-note string of a pitch whose octave is a single digit. */
  function NoteString(p: Pitch): string
    requires 0 <= p.octave <= 9
  {
    p.name + [DigitChar(p.octave)]
  }

  /** Splitting inverts NoteString for single-digit octaves. */
  lemma SplitNoteRoundTrip(p: Pitch)
    requires 0 <= p.octave <= 9
    ensures SplitNote(NoteString(p)) == Spelling(p.name, Fin(p.octave))
  {
  }

  /** A two-digit octave is not recovered: "C10" splits into name "C1" and octave 0. */
  lemma SplitNoteTwoDigitOctave()
    ensures SplitNote("C10") == Spelling("C1", Fin(0))
  {
  }
}

=== FILE: outcomes.dfy ===
/** Option and Result wrappers shared by the pitch actions, plus the failures they can end in. */
module Outcomes {

  datatype Option<+T> = None | Some(value: T)

  /** How a pitch action can fail.
      - NoNoteError and NoArgError are the strings the actions throw.
      - TypeError stands for the runtime error JavaScript raises when an action dereferences
        a null note or pushes onto a note array that does not exist.
      - NaNTransposition is not thrown: it is the state reached when a semitone-transpose
        undo pops an empty value stack, so that `transposition` becomes NaN. */
  datatype Error = NoNoteError | NoArgError | TypeError | NaNTransposition

  /** A Success/Failure datatype usable with `:-`. */
  datatype Result<+T> = Success(value: T) | Failure(error: Error) {

    predicate IsFailure() {
      Failure?
    }

    function PropagateFailure<U>(): Result<U>
      requires Failure?
    {
      Failure(error)
    }

    function Extract(): T
      requires Success?
    {
      value
    }
  }
}

=== FILE: pitch_number.dfy ===
/** The pitch-number blocks: playing a pitch number, converting a number to a pitch name
    or octave, and setting the offset that anchors pitch number 0. */
module PitchNumber {

  import opened Outcomes
  import opened Notes
  import opened Voices
  import opened Host
  import opened NoteEvents

  /** The argument of the number-to-pitch block: a number, null, or anything else. */
  datatype Arg = NumberArg(x: real) | NullArg | OtherArg

  /** What the number-to-pitch block returns: the pitch name or the octave. */
  datatype PitchPart = PitchName(name: string) | OctaveNumber(octave: int)

  /** The pitch-number block. Inside a define block the raw number is recorded and nothing
      else changes; otherwise the number, plus the voice's offset, is spelled by
      numberToPitch and processed as a pitch with no cents. */
  function PlayPitchNumber(env: Env, v: Voice, pitchNumber: int): (r: Voice)
    ensures v.inDefineMode ==> r == v.(defineMode := v.defineMode + [pitchNumber])
    ensures !v.inDefineMode ==>
              var p := env.numberToPitch(pitchNumber + v.pitchNumberOffset, Some(env.temperament),
                                         Some(env.startingPitch), Some(v.pitchNumberOffset));
              r == env.processPitch(v, p.name, p.octave, 0.0)
  {
    if v.inDefineMode then
      v.(defineMode := v.defineMode + [pitchNumber])
    else
      var p := env.numberToPitch(pitchNumber + v.pitchNumberOffset, Some(env.temperament),
                                 Some(env.startingPitch), Some(v.pitchNumberOffset));
      env.processPitch(v, p.name, p.octave, 0.0)
  }

  /** A run of pitch-number blocks, one after the other. */
  function PlayPitchNumbers(env: Env, v: Voice, pitchNumbers: seq<int>): Voice
    decreases |pitchNumbers|
  {
    if |pitchNumbers| == 0 then v
    else PlayPitchNumbers(env, PlayPitchNumber(env, v, pitchNumbers[0]), pitchNumbers[1..])
  }

  /** In define mode a run of pitch-number blocks records exactly those numbers, in order,
      after whatever was recorded before, and changes nothing else. */
  lemma {:induction false} DefineModeRecordsInOrder(env: Env, v: Voice, pitchNumbers: seq<int>)
    requires v.inDefineMode
    ensures PlayPitchNumbers(env, v, pitchNumbers) == v.(defineMode := v.defineMode + pitchNumbers)
    decreases |pitchNumbers|
  {
    if |pitchNumbers| > 0 {
      var w := PlayPitchNumber(env, v, pitchNumbers[0]);
      DefineModeRecordsInOrder(env, w, pitchNumbers[1..]);
      assert w.defineMode + pitchNumbers[1..] == v.defineMode + pitchNumbers;
    }
  }

  /** The number-to-pitch block. Null or a non-number throws NoArgError; otherwise the
      floor of the number plus the voice's offset is spelled, and the block returns the
      pitch name when asked for "pitch" and the octave for any other output type. */
  function NumToPitch(env: Env, v: Voice, number: Arg, outType: string): (r: Result<PitchPart>)
    ensures r.Failure? <==> !number.NumberArg?
    ensures r.Failure? ==> r.error == NoArgError
    ensures r.Success? ==>
              var p := env.numberToPitch(number.x.Floor + v.pitchNumberOffset, None, None, None);
              && (outType == "pitch" ==> r.value == PitchName(p.name))
              && (outType != "pitch" ==> r.value == OctaveNumber(p.octave))
  {
    match number
    case NumberArg(x) =>
      var p := env.numberToPitch(x.Floor + v.pitchNumberOffset, None, None, None);
      if outType == "pitch" then Success(PitchName(p.name)) else Success(OctaveNumber(p.octave))
    case _ => Failure(NoArgError)
  }

  /** The octave the set-offset block anchors to: calcOctave, rounded down. */
  function AnchorOctave(env: Env, v: Voice, pitch: string, octave: real): int {
    env.calcOctave(v.currentOctave, octave, v.lastNotePlayed, pitch).Floor
  }

  /** The set-pitch-number-offset block: the offset becomes the pitch number of the given
      pitch at the resolved octave; nothing else changes. */
  function SetPitchNumberOffset(env: Env, v: Voice, pitch: string, octave: real): (r: Voice)
    ensures r == v.(pitchNumberOffset := r.pitchNumberOffset)
    ensures r.pitchNumberOffset == env.pitchToNumber(pitch, Fin(AnchorOctave(env, v, pitch, octave)), v.keySignature)
  {
    v.(pitchNumberOffset := env.pitchToNumber(pitch, Fin(AnchorOctave(env, v, pitch, octave)), v.keySignature))
  }

  /** When numberToPitch spells back what pitchToNumber numbered, setting the offset to a
      pitch makes every number in [0, 1) name that pitch and its octave. */
  lemma OffsetAnchorsZero(env: Env, v: Voice, pitch: string, octave: real, x: real)
    requires 0.0 <= x < 1.0
    requires var o := AnchorOctave(env, v, pitch, octave);
      env.numberToPitch(env.pitchToNumber(pitch, Fin(o), v.keySignature), None, None, None) == Pitch(pitch, o)
    ensures var w := SetPitchNumberOffset(env, v, pitch, octave);
      && NumToPitch(env, w, NumberArg(x), "pitch") == Success(PitchName(pitch))
      && NumToPitch(env, w, NumberArg(x), "octave") == Success(OctaveNumber(AnchorOctave(env, v, pitch, octave)))
  {
  }

  /** A number measured by a hertz block is relative to the pitch-number offset, so reading
      it back with the number-to-pitch block names the heard pitch as getNote spelled it,
      whenever numberToPitch spells back what pitchToNumber numbered. */
  lemma MeasuredNumberNamesHeardPitch(env: Env, v: Voice, heard: HeardPitch)
    requires var q := env.getNote(heard.name, Fin(heard.octave), 0, v.keySignature, v.moveable, None, None);
      env.numberToPitch(env.pitchToNumber(q.name, Fin(q.octave), v.keySignature), None, None, None) == q
    ensures var q := env.getNote(heard.name, Fin(heard.octave), 0, v.keySignature, v.moveable, None, None);
      var x := MeasuredNumber(env, v, heard) as real;
      && NumToPitch(env, v, NumberArg(x), "pitch") == Success(PitchName(q.name))
      && NumToPitch(env, v, NumberArg(x), "octave") == Success(OctaveNumber(q.octave))
  {
  }
}

=== FILE: scopes.dfy ===
/** Nested block scopes around hertz blocks. Each modifier block applies its entry
    transition, runs its body, and fires its listener when the body ends; the listener runs
    at the exit of its own block, so scopes close in last-in first-out order. */
module Scopes {

  import opened Outcomes
  import opened Voices
  import opened Host
  import opened Modifiers
  import opened NoteEvents

  /** A block program. `InvertBlock` stands for the enclosing inversion scope, which pushes
      an inversion record on entry and pops it on exit; the inversion block's own code is
      not part of this model, it is here only so that inversion can change around and inside
      the modifier scopes. */
  datatype Block =
    | SemitoneTransposeBlock(amount: int, body: seq<Block>)
    | AccidentalBlock(token: string, body: seq<Block>)
    | InvertBlock(pivot: Inversion, body: seq<Block>)
    | HertzBlock(hertz: real)

  /** Runs one block on the voice; the first error aborts the run. */
  function Run(env: Env, v: Voice, b: Block): Result<Voice>
    requires AccidentalTablesAligned(env)
    decreases b
  {
    match b
    case SemitoneTransposeBlock(amount, body) =>
      var e := SetSemitoneTranspose(v, amount);
      var w :- RunAll(env, e.voice, body);
      ExitScope(w, e.undo)
    case AccidentalBlock(token, body) =>
      var e := SetAccidental(env, v, token);
      var w :- RunAll(env, e.voice, body);
      ExitScope(w, e.undo)
    case InvertBlock(pivot, body) =>
      var w :- RunAll(env, v.(invertList := v.invertList + [pivot]), body);
      if |w.invertList| == 0 then Success(w)
      else Success(w.(invertList := w.invertList[..|w.invertList| - 1]))
    case HertzBlock(hertz) =>
      PlayHertz(env, v, hertz)
  }

  /** Runs blocks one after the other. */
  function RunAll(env: Env, v: Voice, bs: seq<Block>): Result<Voice>
    requires AccidentalTablesAligned(env)
    decreases bs
  {
    if |bs| == 0 then Success(v)
    else
      var w :- Run(env, v, bs[0]);
      RunAll(env, w, bs[1..])
  }

  /** Scopes undo exactly: a block that completes leaves the transposition, the stack of
      semitone-transpose values and the inversion records as they were before it, and it
      never pops an empty value stack, so it can fail only by a hertz block's error. */
  lemma {:induction false} RunRestoresModifiers(env: Env, v: Voice, b: Block)
    requires AccidentalTablesAligned(env)
    ensures Run(env, v, b).Success? ==>
              var w := Run(env, v, b).value;
              && w.transposition == v.transposition
              && w.transpositionValues == v.transpositionValues
              && w.invertList == v.invertList
    ensures Run(env, v, b).Failure? ==>
              Run(env, v, b).error == NoNoteError || Run(env, v, b).error == TypeError
    decreases b
  {
    match b
    case SemitoneTransposeBlock(amount, body) =>
      var e := SetSemitoneTranspose(v, amount);
      RunAllRestoresModifiers(env, e.voice, body);
      if RunAll(env, e.voice, body).Success? {
        SemitoneExitUndoesEntry(v, amount, RunAll(env, e.voice, body).value);
      }
    case AccidentalBlock(token, body) =>
      var e := SetAccidental(env, v, token);
      RunAllRestoresModifiers(env, e.voice, body);
      if RunAll(env, e.voice, body).Success? {
        AccidentalExitUndoesEntry(env, v, token, RunAll(env, e.voice, body).value);
      }
    case InvertBlock(pivot, body) =>
      RunAllRestoresModifiers(env, v.(invertList := v.invertList + [pivot]), body);
      assert (v.invertList + [pivot])[..|v.invertList|] == v.invertList;
    case HertzBlock(hertz) =>
      PlayHertzKeepsModifiers(env, v, hertz);
  }

  /** The same for a run of blocks. */
  lemma {:induction false} RunAllRestoresModifiers(env: Env, v: Voice, bs: seq<Block>)
    requires AccidentalTablesAligned(env)
    ensures RunAll(env, v, bs).Success? ==>
              var w := RunAll(env, v, bs).value;
              && w.transposition == v.transposition
              && w.transpositionValues == v.transpositionValues
              && w.invertList == v.invertList
    ensures RunAll(env, v, bs).Failure? ==>
              RunAll(env, v, bs).error == NoNoteError || RunAll(env, v, bs).error == TypeError
    decreases bs
  {
    if |bs| > 0 {
      RunRestoresModifiers(env, v, bs[0]);
      if Run(env, v, bs[0]).Success? {
        RunAllRestoresModifiers(env, Run(env, v, bs[0]).value, bs[1..]);
      }
    }
  }

  /** Whether a program holds modifier scopes only, with no hertz block. */
  predicate ModifiersOnly(b: Block) {
    match b
    case SemitoneTransposeBlock(_, body) => forall i :: 0 <= i < |body| ==> ModifiersOnly(body[i])
    case AccidentalBlock(_, body) => forall i :: 0 <= i < |body| ==> ModifiersOnly(body[i])
    case InvertBlock(_, body) => forall i :: 0 <= i < |body| ==> ModifiersOnly(body[i])
    case HertzBlock(_) => false
  }

  /** A program of nested modifier scopes alone always completes and leaves the voice
      exactly as it found it. */
  lemma {:induction false} ModifiersOnlyIsIdentity(env: Env, v: Voice, b: Block)
    requires AccidentalTablesAligned(env)
    requires ModifiersOnly(b)
    ensures Run(env, v, b) == Success(v)
    decreases b
  {
    match b
    case SemitoneTransposeBlock(amount, body) =>
      var e := SetSemitoneTranspose(v, amount);
      ModifiersOnlyAllIsIdentity(env, e.voice, body);
      SemitoneExitUndoesEntry(v, amount, e.voice);
    case AccidentalBlock(token, body) =>
      var e := SetAccidental(env, v, token);
      ModifiersOnlyAllIsIdentity(env, e.voice, body);
      AccidentalExitUndoesEntry(env, v, token, e.voice);
    case InvertBlock(pivot, body) =>
      ModifiersOnlyAllIsIdentity(env, v.(invertList := v.invertList + [pivot]), body);
      assert (v.invertList + [pivot])[..|v.invertList|] == v.invertList;
  }

  /** The same for a run of such programs. */
  lemma {:induction false} ModifiersOnlyAllIsIdentity(env: Env, v: Voice, bs: seq<Block>)
    requires AccidentalTablesAligned(env)
    requires forall i :: 0 <= i < |bs| ==> ModifiersOnly(bs[i])
    ensures RunAll(env, v, bs) == Success(v)
    decreases bs
  {
    if |bs| > 0 {
      ModifiersOnlyIsIdentity(env, v, bs[0]);
      ModifiersOnlyAllIsIdentity(env, v, bs[1..]);
    }
  }
}

=== FILE: voice.dfy ===
/** The per-voice (per-turtle) state that the pitch actions read and write. */
module Voices {

  import opened Outcomes

  /** The notes collected by one open Note block: the five parallel arrays
      notePitches, noteOctaves, noteCents, noteHertz and noteBeatValues for its key. */
  datatype NoteEvent = NoteEvent(
    pitches: seq<string>,
    octaves: seq<int>,
    cents: seq<real>,
    hertz: seq<real>,
    beatValues: seq<real>)

  /** The four per-pitch arrays have one entry per pitch. */
  predicate LockStep(e: NoteEvent) {
    |e.pitches| == |e.octaves| == |e.cents| == |e.hertz|
  }

  /** A semitone interval [semitones, direction] configured on the voice. */
  datatype SemitoneInterval = SemitoneInterval(semitones: int, direction: int)

  /** An active inversion record [pivot name, pivot octave, mode]. */
  datatype Inversion = Inversion(name: string, octave: int, mode: string)

  /** The singer state of one voice. `transposition` is singer.transposition, which the
      modifier blocks change; `turtleTransposition` is the separate tur.transposition that
      the hertz block reads. `notes` maps a Note block id to its arrays; `inNoteBlock` is the
      stack of open Note block ids. Played notes keep only element 0 of the [note, duration]
      pair, the note string. */
  datatype Voice = Voice(
    transposition: int,
    turtleTransposition: int,
    transpositionValues: seq<int>,
    register: int,
    invertList: seq<Inversion>,
    keySignature: string,
    moveable: bool,
    inDefineMode: bool,
    defineMode: seq<int>,
    justMeasuring: seq<int>,
    firstPitch: seq<int>,
    lastPitch: seq<int>,
    inNoteBlock: seq<int>,
    notes: map<int, NoteEvent>,
    intervals: seq<int>,
    semitoneIntervals: seq<SemitoneInterval>,
    beatFactor: real,
    pushedNote: bool,
    pitchNumberOffset: int,
    currentOctave: int,
    lastNotePlayed: Option<string>,
    previousNotePlayed: Option<string>)

  /** Whether an inversion is active: the test `invertList.length > 0`. */
  predicate Inverted(v: Voice) {
    |v.invertList| > 0
  }

  /** A shift as applied on entry to a modifier: negated while an inversion is active. */
  function Signed(v: Voice, x: int): int {
    if Inverted(v) then -x else x
  }
}
